=== FILE: README.md ===
# outreach-assistant, modelled in Dafny

The outreach assistant is a small HTTP service behind a browser extension. It
receives a LinkedIn profile, asks a language-model vendor (Gemini or OpenAI)
to score the profile against an Ideal Customer Profile (ICP) and, when it
fits, to draft a short connection request. It writes one row per generation
to a spreadsheet logger and returns the message, its length, the score, the
reason and the learnings. It also keeps an editable system prompt in a file,
and has a CRM logger (Attio) that creates a person record and adds it to a
pipeline list.

This project models the core of that service:

| module | file | source |
|---|---|---|
| `Wrappers` | wrappers.dfy | JavaScript's `undefined`/`null`, truthiness and `\|\|` on strings |
| `JsStrings` | strings.dfy | `split(" ")`, `join`, `toLowerCase`, `trim` as JavaScript defines them |
| `Types` | types.dfy | `src/types.ts`; the first-name step the adapters apply to a profile in place |
| `Adapters` | adapters.dfy | the user prompt both adapters build |
| `Gemini` | gemini.dfy | `src/services/gemini.ts` |
| `OpenAI` | openai.dfy | `src/services/openai.ts` |
| `PromptFile` | prompt_file.dfy | the `system_prompt.txt` file shared by the server and the OpenAI adapter |
| `LlmFactory` | llm_factory.dfy | `src/llm_factory.ts` |
| `Server` | server.dfy | `src/index.ts`: the prompt endpoints and `POST /api/generate` |
| `Attio` | attio.dfy | `src/services/attio.ts` |

Each side effect is an explicit part of the model:

- The vendor SDK calls are function-valued parameters: a request goes in and a reply or a thrown error comes out.
- `JSON.parse` and the two `JSON.stringify` forms are function-valued parameters, bundled in `Adapters.JsonCodec`.
- File-system faults are boolean parameters (`readFails`, `writeFails`).
- Environment variables are the configuration datatypes (`Gemini.GeminiConfig`, `OpenAI.OpenAIConfig`, `Server.ServerConfig`, and the `apiKey`/`listId` parameters of the Attio methods).
- Attio's HTTP replies are parameters. The requests sent to Attio are an output.

Two things are stateful, and the model shows them as state:

- The profile object: the adapters write `firstName` into the caller's object, and the server serialises that same object into its log row afterwards. It is the class `Types.Profile`.
- The provider selection: a module-level variable that `setProvider` changes. It is the class `LlmFactory.ProviderSelection`.

Three points about how the code is wired, which the model follows:

- `src/index.ts:5` imports `generateMessage` from the Gemini adapter and calls it at `src/index.ts:82`. The route never goes through the provider selection, so `Server.HandleGenerate` calls `Gemini.GenerateMessage`, not `LlmFactory.ProviderSelection.GenerateMessage`.
- `src/llm_factory.ts:6` imports `generateMessageGemini`, but `src/services/gemini.ts:100` exports only `generateMessage`. The model binds the factory's Gemini branch to `Gemini.GenerateMessage`.
- Screening and drafting happen in a single vendor call per request (`src/services/gemini.ts:136`), not in two separate stages.

## Model

| member | source | states |
|---|---|---|
| `JsStrings.Split` | src/services/attio.ts:104 | `split(c)` yields at least one part, and no part contains the separator |
| `JsStrings.JoinSplit` | src/services/attio.ts:104-105 | joining the parts of a split with the same separator gives back the original string |
| `JsStrings.SplitHeadTail` | src/services/gemini.ts:119 | the first part of a split is the text before the first separator; with no separator there is one part; otherwise the remaining parts join back to the text after the first separator |
| `JsStrings.JoinPlacesParts` | src/index.ts:107 | in `parts.join(sep)` each part appears at its offset, followed by the separator unless it is the last |
| `JsStrings.TrimStartSpec` | src/services/attio.ts:21 | leading trimming removes only a whitespace prefix and keeps a text that starts with a non-whitespace character |
| `JsStrings.TrimEndSpec` | src/services/attio.ts:21 | trailing trimming removes only a whitespace suffix and keeps a text that ends with a non-whitespace character |
| `JsStrings.TrimPadded` | src/services/attio.ts:21 | whitespace around a text does not change its trimmed form |
| `JsStrings.KeyIgnoresCaseAndPadding` | src/services/attio.ts:21 | the normal form `toLowerCase().trim()` ignores surrounding whitespace, upper-casing and lower-casing |
| `JsStrings.KeyOfNormalised` | src/services/attio.ts:21 | a text that lower-cases to a non-empty string with no whitespace at either end has that string as its normal form |
| `Types.DerivedFirstName` | src/services/gemini.ts:118-120 | a truthy first name is kept; a falsy one with an empty name is kept; otherwise the first name becomes the name's text before its first space, which contains no space |
| `Types.DerivedFirstNameIdempotent` | src/services/openai.ts:48-50 | applying the first-name step twice gives the same first name as applying it once |
| `Types.DerivedFirstNameOfFullName` | src/services/gemini.ts:118-120 | "Jane Doe" with a missing or empty first name gets the first name "Jane" |
| `Types.Profile.constructor` | src/types.ts:8-16 | a new profile object holds exactly the given field values |
| `Types.Profile.DeriveFirstName` | src/services/gemini.ts:118-120 | the object's new state is the first-name step applied to its old state; a truthy first name is untouched |
| `Adapters.UserPrompt` | src/services/gemini.ts:124-133 | the user prompt holds the ICP description, the thesis and the profile JSON at fixed, increasing offsets after their headings, and ends with a newline |
| `Gemini.ConfigFrom` | src/services/gemini.ts:7-10 | the key is taken as given; the model is `GEMINI_MODEL` when truthy, else "gemini-1.5-pro" |
| `Gemini.RequestFor` | src/services/gemini.ts:109-136 | the request carries the configured model, the fixed system instruction and the JSON schema, and its user prompt is `Adapters.UserPrompt` around the profile as serialised after the first-name step |
| `Gemini.Outcome` | src/services/gemini.ts:100-152 | no key fails with "GEMINI_API_KEY is not set"; a vendor error is rethrown; unparsable text fails with "Invalid JSON response from Gemini"; success exactly when the text parses, with the parsed value |
| `Gemini.GenerateMessage` | src/services/gemini.ts:100-152 | returns `Gemini.Outcome` for the profile as it was on entry; without a key the profile is unchanged, otherwise it holds the derived first name |
| `Gemini.JaneDoeReachesVendorAsJane` | src/services/gemini.ts:118-133 | a profile "Jane Doe" without a first name is serialised with first name "Jane", and that JSON and the thesis sit at their places in the prompt sent |
| `OpenAI.ClientFor` | src/services/openai.ts:9-14 | a client exists exactly when the key is truthy, and it carries that key |
| `OpenAI.ConfigFrom` | src/services/openai.ts:9-16 | a client exactly when the key is truthy; the model is `OPENAI_MODEL` when truthy, else "gpt-4o" |
| `OpenAI.SystemPrompt` | src/services/openai.ts:18-28 | the prompt file's contents when the file exists and is readable, even when empty; the fixed default otherwise |
| `OpenAI.RequestFor` | src/services/openai.ts:69-76 | the request carries the configured model and the JSON response format, and exactly two messages: the system prompt, then the user prompt around the profile as serialised after the first-name step |
| `OpenAI.Outcome` | src/services/openai.ts:37-96 | no client fails with "OPENAI_API_KEY is not set"; a vendor error is rethrown; missing or empty content fails with "OpenAI returned empty content"; unparsable content fails with "Invalid JSON response from OpenAI"; success exactly when the content is non-empty and parses |
| `OpenAI.GenerateMessageOpenAI` | src/services/openai.ts:37-96 | returns `OpenAI.Outcome` for the profile and prompt file as they were on entry; without a client the profile is unchanged, otherwise it holds the derived first name |
| `LlmFactory.InitialProvider` | src/llm_factory.ts:13 | the start-up provider is `LLM_PROVIDER` when truthy, else "gemini", and is not checked for validity |
| `LlmFactory.Selected` | src/llm_factory.ts:15-21 | `setProvider` selects a valid provider, and keeps the current selection for any other name |
| `LlmFactory.SelectedAfterUnchanged` | src/llm_factory.ts:15-22 | a series of `setProvider` calls none of which names a valid provider leaves the selection unchanged |
| `LlmFactory.SelectedAfterLastValid` | src/llm_factory.ts:15-22 | after a series of `setProvider` calls the selection is the last valid name given |
| `LlmFactory.SelectedAfterValid` | src/llm_factory.ts:15-22 | once one call in a series has named a valid provider, the selection is valid whatever the start-up value |
| `LlmFactory.SetProviderIdempotent` | src/llm_factory.ts:15-22 | setting the same provider twice leaves the same selection as setting it once |
| `LlmFactory.InitialProviderIsNotValidated` | src/llm_factory.ts:13-44 | a start-up value "claude" is not a valid provider, survives invalid `setProvider` calls, and is not "openai", so the dispatch sends it to Gemini |
| `LlmFactory.ProviderSelection.constructor` | src/llm_factory.ts:13 | the selection starts at `LlmFactory.InitialProvider` |
| `LlmFactory.ProviderSelection.GetProvider` | src/llm_factory.ts:24 | `getProvider` returns the current selection |
| `LlmFactory.ProviderSelection.SetProvider` | src/llm_factory.ts:15-24 | a valid provider is selected and the call returns normally; any other value throws "Invalid provider" and leaves the selection unchanged |
| `LlmFactory.ProviderSelection.GenerateMessage` | src/llm_factory.ts:33-44 | "openai" yields the OpenAI adapter's outcome, every other selection the Gemini adapter's; the selection is not changed; the profile holds the derived first name when the chosen adapter has its credential, and is unchanged otherwise |
| `LlmFactory.AdaptersSendSameUserPrompt` | src/services/openai.ts:54-76 | OpenAI sends exactly two messages, the system prompt and then the same user prompt that Gemini sends |
| `Server.UpdateReply` | src/index.ts:30-45 | 400 exactly when the prompt is missing, empty or not a string; 500 exactly when a valid prompt cannot be written; 200 otherwise; the bodies are the error "Prompt string is required", the error "Failed to update system prompt" and the message "System prompt updated successfully" |
| `Server.StoredAfterUpdate` | src/index.ts:31-40 | the file holds the new prompt exactly when the reply is 200, and is unchanged otherwise |
| `Server.GetPromptReply` | src/index.ts:48-61 | 404 exactly when the file does not exist; 200 with its contents exactly when it exists and is readable; 500 otherwise, each with its message |
| `Server.UpdatePrompt` | src/index.ts:30-45 | replies with `Server.UpdateReply` and leaves the file as `Server.StoredAfterUpdate` says |
| `Server.GetPrompt` | src/index.ts:48-61 | replies with `Server.GetPromptReply` and changes nothing |
| `Server.UpdateThenRead` | src/index.ts:38-53 | a prompt that was stored is what the get endpoint returns and what the OpenAI adapter uses as its system prompt |
| `Server.ThesisToUse` | src/index.ts:76 | the request's thesis when truthy, else `DEFAULT_THESIS` when truthy; empty exactly when both are falsy |
| `Server.IcpDescriptionToUse` | src/index.ts:77 | `ICP_DESCRIPTION` when truthy, else the fixed default; never empty |
| `Server.IcpFit` | src/index.ts:113 | "good" exactly when the score is above 5, "poor" exactly when it is 5 or below |
| `Server.SuccessResponse` | src/index.ts:110-117 | the message is null exactly when the vendor's is missing or empty; the length is its length, 0 when null; the fit follows the score; the ICP fields are copied; no error |
| `Server.LogEntryFor` | src/index.ts:95-108 | the campaign id defaults to ""; the name is the profile's; headline and location default to ""; the logged message and length agree with the response; the URL falls back from the profile to the request; the raw JSON is the profile's compact form; the learnings are joined with ", " |
| `Server.LoggedLearningsInOrder` | src/index.ts:107 | each learning appears in the logged text at its offset and in order, followed by ", " unless it is the last |
| `Server.HandleGenerate` | src/index.ts:63-117 | no profile gives 400 "Missing profile data" with no row logged; an adapter failure gives 500 "LLM generation failed" with no row logged; otherwise one row is logged from the profile as the adapter left it, and 200 carries `Server.SuccessResponse`; with a profile, it holds the derived first name afterwards exactly when the Gemini key is set, whatever the outcome, and is unchanged otherwise |
| `Server.ScoreBuckets` | src/index.ts:110-117 | a score of 8 with a drafted message is "good" and returns it; a score of 3 without one is "poor" with a null message and length 0; a score of exactly 5 is "poor" and still passes a message through |
| `Attio.StageOptionId` | src/services/attio.ts:8-23 | a stage name finds an option id exactly when its normal form is one of the mapping's own keys, and the id is that key's entry |
| `Attio.StageIgnoresCaseAndPadding` | src/services/attio.ts:20-23 | letter case and surrounding whitespace do not change the stage found |
| `Attio.LeadIsSentConnection` | src/services/attio.ts:10 | "Lead" finds the "sent connection" option |
| `Attio.MisspeltWonStage` | src/services/attio.ts:16 | " Repied/Won" finds the "replied/won" option |
| `Attio.UnknownStage` | src/services/attio.ts:20-23 | a name outside the mapping finds no option |
| `Attio.StageOptionIdAsWritten` | src/services/attio.ts:22 | the lookup as written agrees with `Attio.StageOptionId` on the mapping's keys, and returns null only where the corrected lookup does; it returns null exactly when the normal form is neither an own key nor "constructor" or "__proto__", and an inherited member found is the one named by the normal form |
| `Attio.InheritedStageNameLeaks` | src/services/attio.ts:22 | "Constructor" makes the lookup as written return an inherited member, where the corrected lookup returns null |
| `Attio.SplitPersonName` | src/services/attio.ts:104-105 | the first name is the text before the first space; the last name is the rest, and first + " " + last rebuilds the name; the last name is "-" when there is no space or nothing after it |
| `Attio.FindOption` | src/services/attio.ts:49 | the index found is the first option whose title matches ignoring case and padding; none is found exactly when no title matches |
| `Attio.ResolvedOptionId` | src/services/attio.ts:26-82 | no key or a failed fetch gives null; a match gives the first matching option's id; otherwise the created option's id, or null when creation fails |
| `Attio.OptionRequests` | src/services/attio.ts:26-76 | no request without a key; otherwise at most two, and an option is created exactly when the fetch succeeded and no title matched |
| `Attio.GetOrCreateSelectOption` | src/services/attio.ts:26-82 | returns `Attio.ResolvedOptionId`; the requests sent are exactly `Attio.OptionRequests`: nothing without a key, otherwise one fetch followed by a creation exactly when the fetch succeeded and nothing matched |
| `Attio.OptionalPersonFields` | src/services/attio.ts:116-119 | job title, company, LinkedIn and description are each present exactly when truthy, and carry the entry's text |
| `Attio.PersonBodyFor` | src/services/attio.ts:104-122 | the person body carries the first and last name from `Attio.SplitPersonName`, the full name as given, and `Attio.OptionalPersonFields` |
| `Attio.EntryValues` | src/services/attio.ts:164-168 | notes, stage and outreach variant are each present exactly when truthy, and carry the given value |
| `Attio.StageIdFor` | src/services/attio.ts:149 | a truthy stage is looked up with `Attio.StageOptionId`; a falsy one gives null |
| `Attio.VariantRequests` | src/services/attio.ts:155-158 | the option requests for the outreach variant are those of `Attio.OptionRequests` when a variant is given, and none otherwise |
| `Attio.StageInEntryIffMapped` | src/services/attio.ts:149-166 | with the corrected lookup, the list entry has a stage exactly when the entry names a stage among the mapping's own keys |
| `Attio.LogToAttio` | src/services/attio.ts:95-202 | no key: nothing is sent. Otherwise the person is created first. A failed creation throws with its status line or error, and nothing more is sent. Without a list id it stops there. Otherwise the requests are exactly the person creation, the variant's option requests (`Attio.VariantRequests`) and the list entry with the resolved values. The result or error follows the list reply |

## Left out

- The Express surface: `/health`, `/admin`, CORS, JSON body parsing and the listening port.
- The outer catch-all of `POST /api/generate` (`src/index.ts:119-128`) is not modelled. It is reached whenever the parsed vendor reply is not a well-formed response (for example `null`, or an `icpLearning` that is not an array), or the logger throws. The spreadsheet logger is not part of this model, and the model takes the parsed reply as well-formed.
- `src/services/sheets.ts` is not part of this model. The row handed to it is the `logged` result of `Server.HandleGenerate`.
- The vendor SDKs, `JSON.parse` and `JSON.stringify` are opaque function parameters. The JSON response schema given to Gemini is a flag on the request, not its contents.
- `JSON.parse(text) as Response` is an unchecked cast. The model's parse function yields a well-formed `GenerationResponse` or nothing; a parsed value of the wrong shape is not modelled.
- `completion.choices[0]` with no choices throws a `TypeError`. The model's vendor reply always has a first choice; such a throw would be one more `Threw` reply.
- `Gemini.SystemInstruction`: only the first sentence of the screening and drafting instruction is kept, because its text is opaque to the vendor function.
- Logging to the console and the timing of the OpenAI call (`Date.now`) are left out.
- Concurrency is left out. Requests are handled one at a time, and the prompt file and the provider selection are not raced.
- `JsStrings.Lower`: `toLowerCase` is modelled on the ASCII letters only; other Unicode case mappings are not modelled.
- String lengths count Dafny characters, which are code points. JavaScript's `length` counts UTF-16 code units, so a message outside the Basic Multilingual Plane would have a larger length there.
- The Attio URLs, headers, request methods and the error texts read from failed responses are left out. A request is named by its kind and body only.
- `Attio.LogToAttio` returns which records were created, not the bodies of Attio's replies. A reply body of an unexpected shape, which would throw when the record id is read, is not modelled.
- `Attio.LogToAttio` uses the corrected stage lookup `Attio.StageOptionId`, not the lookup as written. For a stage such as "Constructor" the code's list entry carries a stage value that is an inherited member (serialised as `[{}]`), while the model's entry carries no stage; see "## Findings".
- `Server.StoredAfterUpdate` models a failed write as leaving the prompt file untouched. `writeFileSync` truncates the file before it writes, so a failure during the write itself (a full disk, say) can leave an empty or partial file.
- `Attio.GetOrCreateSelectOption`: the fetched options are a list of titles and ids. A missing `data` field counts as the empty list, and an option without a title is not modelled.

## Findings

| source | as written | input that shows it | evidently intended | confidence | as-written member | corrected member |
|---|---|---|---|---|---|---|
| src/services/attio.ts:22 | `STAGE_MAPPING[key] \|\| null` also reads properties that every object inherits from `Object.prototype`. Of these, "constructor" and "__proto__" are reachable after lower-casing, and both are truthy. | stage "Constructor": the lookup returns the `Object` function instead of null, and the list entry then carries a stage value that is not an option id | return an option id only for the mapping's own keys, and null otherwise | not executed; the JavaScript semantics of property lookup on an object literal are well established | `Attio.StageOptionIdAsWritten`, `Attio.InheritedStageNameLeaks` | `Attio.StageOptionId` |

=== FILE: adapters.dfy ===
/** What the two vendor adapters share: the user prompt they send and the
    JSON facilities they use, which the model takes as opaque functions. */
module Adapters {
  import opened Wrappers
  import opened Types

  /** `JSON.parse(text) as Response` (None when it throws) and the two
      `JSON.stringify` forms applied to a profile. */
  datatype JsonCodec = JsonCodec(
    parse: string -> Option<GenerationResponse>,
    pretty: ProfileData -> string,
    compact: ProfileData -> string)

  const IcpHeader: string := "\nICP Description:\n"
  const ThesisHeader: string := "\n\nResearch Thesis:\n"
  const ProfileHeader: string := "\n\nTarget Profile JSON:\n"

  /** Offsets at which the three inserted texts start in the user prompt. */
  function ThesisOffset(icpDescription: string): nat {
    |IcpHeader| + |icpDescription| + |ThesisHeader|
  }

  function ProfileOffset(icpDescription: string, thesis: string): nat {
    ThesisOffset(icpDescription) + |thesis| + |ProfileHeader|
  }

  /** The user prompt: the ICP description, then the thesis, then the
      profile JSON, each under its own heading, ending with a newline. */
  function UserPrompt(icpDescription: string, thesis: string, profileJson: string): (r: string)
    ensures |r| == ProfileOffset(icpDescription, thesis) + |profileJson| + 1
    ensures r[|IcpHeader|..][..|icpDescription|] == icpDescription
    ensures r[ThesisOffset(icpDescription)..][..|thesis|] == thesis
    ensures r[ProfileOffset(icpDescription, thesis)..][..|profileJson|] == profileJson
    ensures |IcpHeader| + |icpDescription| < ThesisOffset(icpDescription)
    ensures ThesisOffset(icpDescription) + |thesis| < ProfileOffset(icpDescription, thesis)
    ensures r[..|IcpHeader|] == IcpHeader
    ensures r[|IcpHeader| + |icpDescription|..][..|ThesisHeader|] == ThesisHeader
    ensures r[ThesisOffset(icpDescription) + |thesis|..][..|ProfileHeader|] == ProfileHeader
    ensures r[|r| - 1] == '\n'
  {
    var r := IcpHeader + icpDescription + ThesisHeader + thesis + ProfileHeader + profileJson + "\n";
    assert r[..|IcpHeader|] == IcpHeader;
    assert r[|IcpHeader|..] == icpDescription + ThesisHeader + thesis + ProfileHeader + profileJson + "\n";
    assert r[|IcpHeader| + |icpDescription|..] == ThesisHeader + thesis + ProfileHeader + profileJson + "\n";
    assert r[ThesisOffset(icpDescription) + |thesis|..] == ProfileHeader + profileJson + "\n";
    assert r[ThesisOffset(icpDescription)..] == thesis + ProfileHeader + profileJson + "\n";
    assert r[ProfileOffset(icpDescription, thesis)..] == profileJson + "\n";
    r
  }
}

=== FILE: attio.dfy ===
/** The CRM logger's string logic and request sequence: the stage-name
    lookup, the person-name split, the match-or-create of a select option,
    and which optional values go into the person and list-entry bodies.
    The HTTP replies are inputs; the requests sent are an output. */
module Attio {
  import opened Wrappers
  import opened JsStrings

  // ---------------------------------------------------------------------------
  // Stage names

  const SentConnection: string := "3cf1900a-5c4c-4d5a-9241-34a9951bdb6a"
  const Accepted: string := "65763c0a-43d9-4651-b4f0-458044c44a86"
  const Message1: string := "ca805361-4a9a-4f61-bcf3-b56696d11b3d"
  const Message2: string := "fd12dee4-bece-44ae-bac2-7924853777c1"
  const Message3: string := "0d18b57c-5b98-49a7-8c1b-514c21362bcc"
  const RepliedWon: string := "88e39a45-ea88-4ac3-ab39-3472968553ad"
  const RepliedLost: string := "0ed37f42-f81b-460d-ab81-e10c297225da"

  /** Stage names, lower case, to the option ids of the pipeline's stage
      attribute. "lead" is an alias of "sent connection", and "repied/won"
      catches a misspelt stage. */
  const StageMapping: map<string, string> := map[
    "sent connection" := SentConnection,
    "lead" := SentConnection,
    "accepted" := Accepted,
    "message 1" := Message1,
    "message 2" := Message2,
    "message 3" := Message3,
    "replied/won" := RepliedWon,
    "repied/won" := RepliedWon,
    "replied/lost" := RepliedLost]

  /** `getStageOptionId`, looking up only the mapping's own entries. */
  function StageOptionId(stageName: string): (id: Option<string>)
    ensures id.Some? <==> Key(stageName) in StageMapping
    ensures id.Some? ==> id.value == StageMapping[Key(stageName)]
    ensures id.Some? ==> id.value in {SentConnection, Accepted, Message1, Message2, Message3, RepliedWon, RepliedLost}
  {
    var key := Key(stageName);
    if key in StageMapping then Some(StageMapping[key]) else None
  }

  /** Letter case and surrounding whitespace do not change the stage found. */
  lemma StageIgnoresCaseAndPadding(ws: string, stageName: string, ws': string)
    requires AllWhitespace(ws) && AllWhitespace(ws')
    ensures StageOptionId(ws + stageName + ws') == StageOptionId(stageName)
    ensures StageOptionId(Upper(stageName)) == StageOptionId(stageName)
    ensures StageOptionId(Lower(stageName)) == StageOptionId(stageName)
  {
    KeyIgnoresCaseAndPadding(ws, stageName, ws');
  }

  /** "Lead" is an alias of the first stage. */
  lemma LeadIsSentConnection(stageName: string)
    requires stageName == "Lead"
    ensures StageOptionId(stageName) == Some(SentConnection)
  {
    KeyOfNormalised(stageName, "lead");
  }

  /** The misspelling "Repied/Won", padded or not, finds the won stage. */
  lemma MisspeltWonStage(stageName: string)
    requires stageName == " Repied/Won"
    ensures StageOptionId(stageName) == Some(RepliedWon)
  {
    KeyIgnoresCaseAndPadding(" ", "Repied/Won", "");
    assert stageName == " " + "Repied/Won" + "";
    KeyOfNormalised("Repied/Won", "repied/won");
  }

  /** A name outside the mapping finds no stage. */
  lemma UnknownStage(stageName: string)
    requires stageName == "Won"
    ensures StageOptionId(stageName) == None
  {
    KeyOfNormalised(stageName, "won");
  }

  // ---------------------------------------------------------------------------
  // As written, `STAGE_MAPPING[key] || null` also reads the properties every
  // object literal inherits from Object.prototype.

  /** Inherited property names that are already lower case, so a lower-cased
      stage name can reach them. */
  const InheritedLowerCaseProperties: set<string> := {"constructor", "__proto__"}

  datatype StageLookup = OptionId(id: string) | InheritedMember(property: string)

  /** `getStageOptionId` as written: own entries first, then inherited members,
      which are truthy (a function or an object) and so are returned. */
  function StageOptionIdAsWritten(stageName: string): (r: Option<StageLookup>)
    ensures r.Some? && r.value.OptionId? ==> Some(r.value.id) == StageOptionId(stageName)
    ensures StageOptionId(stageName).Some? ==> r == Some(OptionId(StageOptionId(stageName).value))
    ensures r.None? ==> StageOptionId(stageName).None?
    ensures r.None? <==> Key(stageName) !in StageMapping && Key(stageName) !in InheritedLowerCaseProperties
    ensures r.Some? && r.value.InheritedMember? ==> r.value.property == Key(stageName)
  {
    var key := Key(stageName);
    if key in StageMapping then Some(OptionId(StageMapping[key]))
    else if key in InheritedLowerCaseProperties then Some(InheritedMember(key))
    else None
  }

  /** The stage name "Constructor" is not in the mapping, yet the lookup as
      written returns a non-null value that is no option id; the own-entry
      lookup returns null. */
  lemma InheritedStageNameLeaks(stageName: string)
    requires stageName == "Constructor"
    ensures StageOptionIdAsWritten(stageName) == Some(InheritedMember("constructor"))
    ensures StageOptionId(stageName) == None
  {
    KeyOfNormalised(stageName, "constructor");
  }

  // ---------------------------------------------------------------------------
  // Person names

  /** `const [firstName, ...lastNameParts] = person.split(" ")` and
      `lastNameParts.join(" ") || "-"`. */
  function SplitPersonName(person: string): (names: (string, string))
    ensures names.0 == person[..IndexOf(person, ' ')] && ' ' !in names.0
    ensures ' ' !in person ==> names.1 == "-"
    ensures ' ' in person && person[IndexOf(person, ' ') + 1..] == "" ==> names.1 == "-"
    ensures ' ' in person && person[IndexOf(person, ' ') + 1..] != "" ==>
      names.1 == person[IndexOf(person, ' ') + 1..] && names.0 + " " + names.1 == person
  {
    SplitHeadTail(person, ' ');
    var parts := Split(person, ' ');
    var lastName := Join(parts[1..], " ");
    (parts[0], if lastName == "" then "-" else lastName)
  }

  // ---------------------------------------------------------------------------
  // Select options

  datatype SelectOption = SelectOption(title: string, optionId: string)

  predicate TitleMatches(title: string, wanted: string) {
    Key(title) == Key(wanted)
  }

  /** `options.find(...)`: the index of the first option whose title matches. */
  function FindOption(options: seq<SelectOption>, wanted: string): (i: Option<nat>)
    ensures i.Some? ==> i.value < |options| && TitleMatches(options[i.value].title, wanted)
    ensures i.Some? ==> forall j :: 0 <= j < i.value ==> !TitleMatches(options[j].title, wanted)
    ensures i.None? ==> forall j :: 0 <= j < |options| ==> !TitleMatches(options[j].title, wanted)
  {
    if options == [] then None
    else if TitleMatches(options[0].title, wanted) then Some(0)
    else
      var rest := FindOption(options[1..], wanted);
      assert forall j :: 1 <= j < |options| ==> options[j] == options[1..][j - 1];
      if rest.None? then None else Some(rest.value + 1)
  }

  /** An HTTP exchange as the caller sees it: a decoded body, a response
      that is not ok, or a thrown error. `statusLine` is the response's
      status code and status text joined by a space. */
  datatype HttpReply<T> = Ok(body: T) | NotOk(statusLine: string) | Threw(error: string)

  datatype AttioRequest =
    | FetchOptions(listId: string, attribute: string)
    | CreateOption(listId: string, attribute: string, title: string)
    | CreatePerson(body: PersonBody)
    | AddListEntry(listId: string, entry: ListEntryBody)

  /** The option id `getOrCreateSelectOption` settles on: none without a key
      or when a request fails; the first matching option's id; otherwise the
      id of the option it created. */
  function ResolvedOptionId(apiKey: Option<string>, listed: HttpReply<seq<SelectOption>>,
                            created: HttpReply<string>, optionTitle: string): (id: Option<string>)
    ensures !Truthy(apiKey) || !listed.Ok? ==> id == None
    ensures Truthy(apiKey) && listed.Ok? && FindOption(listed.body, optionTitle).Some? ==>
      exists k :: 0 <= k < |listed.body| && id == Some(listed.body[k].optionId)
                  && TitleMatches(listed.body[k].title, optionTitle)
                  && forall j :: 0 <= j < k ==> !TitleMatches(listed.body[j].title, optionTitle)
    ensures Truthy(apiKey) && listed.Ok? && FindOption(listed.body, optionTitle).None? ==>
      id == (if created.Ok? then Some(created.body) else None)
  {
    if !Truthy(apiKey) || !listed.Ok? then None
    else match FindOption(listed.body, optionTitle)
      case Some(k) => Some(listed.body[k].optionId)
      case None => if created.Ok? then Some(created.body) else None
  }

  /** The requests `getOrCreateSelectOption` sends, in order: none without a
      key; otherwise the fetch of the options, followed by the creation of the
      option exactly when the fetch succeeded and no title matched. */
  function OptionRequests(apiKey: Option<string>, listId: string, attributeSlug: string, optionTitle: string,
                          listed: HttpReply<seq<SelectOption>>): (sent: seq<AttioRequest>)
    ensures |sent| <= 2
    ensures sent == [] <==> !Truthy(apiKey)
    ensures CreateOption(listId, attributeSlug, optionTitle) in sent <==>
      Truthy(apiKey) && listed.Ok? && FindOption(listed.body, optionTitle).None?
  {
    if !Truthy(apiKey) then []
    else [FetchOptions(listId, attributeSlug)]
         + (if listed.Ok? && FindOption(listed.body, optionTitle).None? then [CreateOption(listId, attributeSlug, optionTitle)] else [])
  }

  /** `getOrCreateSelectOption(listId, attributeSlug, optionTitle)`: no request
      without a key; otherwise it fetches the options, and creates one only
      when no existing option matches. */
  method GetOrCreateSelectOption(apiKey: Option<string>, listId: string, attributeSlug: string, optionTitle: string,
                                 listed: HttpReply<seq<SelectOption>>, created: HttpReply<string>)
    returns (id: Option<string>, sent: seq<AttioRequest>)
    ensures id == ResolvedOptionId(apiKey, listed, created, optionTitle)
    ensures sent == OptionRequests(apiKey, listId, attributeSlug, optionTitle, listed)
    ensures !Truthy(apiKey) ==> sent == []
    ensures Truthy(apiKey) ==> 1 <= |sent| <= 2 && sent[0] == FetchOptions(listId, attributeSlug)
    ensures CreateOption(listId, attributeSlug, optionTitle) in sent <==>
      Truthy(apiKey) && listed.Ok? && FindOption(listed.body, optionTitle).None?
    ensures forall q :: q in sent ==> q == FetchOptions(listId, attributeSlug) || q == CreateOption(listId, attributeSlug, optionTitle)
  {
    if !Truthy(apiKey) {
      return None, [];
    }
    sent := [FetchOptions(listId, attributeSlug)];
    if !listed.Ok? {
      return None, sent;
    }
    var options := listed.body;
    var found := FindOption(options, optionTitle);
    if found.Some? {
      return Some(options[found.value].optionId), sent;
    }
    sent := sent + [CreateOption(listId, attributeSlug, optionTitle)];
    if !created.Ok? {
      return None, sent;
    }
    id := Some(created.body);
  }

  // ---------------------------------------------------------------------------
  // Request bodies

  datatype AttioLogEntry = AttioLogEntry(
    person: string,
    jobTitle: Option<string>,
    company: Option<string>,
    linkedIn: Option<string>,
    description: Option<string>,
    notes: Option<string>,
    stage: Option<string>,
    outreachVariant: Option<string>)

  datatype Field = Field(attribute: string, value: string)

  datatype PersonBody = PersonBody(firstName: string, lastName: string, fullName: string, fields: seq<Field>)

  predicate HasAttribute(fields: seq<Field>, attribute: string) {
    exists f :: f in fields && f.attribute == attribute
  }

  function FieldIf(attribute: string, value: Option<string>): seq<Field> {
    if Truthy(value) then [Field(attribute, value.value)] else []
  }

  /** The optional person values: each of job title, company, LinkedIn and
      description is present exactly when the entry's field is truthy, and
      then carries that field's text. */
  function OptionalPersonFields(entry: AttioLogEntry): (fields: seq<Field>)
    ensures HasAttribute(fields, "job_title") <==> Truthy(entry.jobTitle)
    ensures HasAttribute(fields, "company") <==> Truthy(entry.company)
    ensures HasAttribute(fields, "linkedin") <==> Truthy(entry.linkedIn)
    ensures HasAttribute(fields, "description") <==> Truthy(entry.description)
    ensures forall f :: f in fields ==>
      || (f.attribute == "job_title" && Some(f.value) == entry.jobTitle)
      || (f.attribute == "company" && Some(f.value) == entry.company)
      || (f.attribute == "linkedin" && Some(f.value) == entry.linkedIn)
      || (f.attribute == "description" && Some(f.value) == entry.description)
  {
    var fields := FieldIf("job_title", entry.jobTitle) + FieldIf("company", entry.company)
                  + FieldIf("linkedin", entry.linkedIn) + FieldIf("description", entry.description);
    assert forall f :: f in fields <==>
      f in FieldIf("job_title", entry.jobTitle) || f in FieldIf("company", entry.company)
      || f in FieldIf("linkedin", entry.linkedIn) || f in FieldIf("description", entry.description);
    fields
  }

  /** The person record's body: the name split into first and last name, the
      full name as given, and the optional fields. */
  function PersonBodyFor(entry: AttioLogEntry): (body: PersonBody)
    ensures (body.firstName, body.lastName) == SplitPersonName(entry.person)
    ensures body.fullName == entry.person
    ensures body.fields == OptionalPersonFields(entry)
  {
    var names := SplitPersonName(entry.person);
    PersonBody(names.0, names.1, entry.person, OptionalPersonFields(entry))
  }

  datatype EntryValue = Notes(text: string) | Stage(option: string) | OutreachVariant(option: string)

  datatype ListEntryBody = ListEntryBody(parentRecordId: string, parentObject: string, values: seq<EntryValue>)

  /** The list entry's values: notes, stage and outreach variant, each present
      exactly when its value is truthy. */
  function EntryValues(notes: Option<string>, stageId: Option<string>, variantId: Option<string>): (vs: seq<EntryValue>)
    ensures (exists v :: v in vs && v.Notes?) <==> Truthy(notes)
    ensures (exists v :: v in vs && v.Stage?) <==> Truthy(stageId)
    ensures (exists v :: v in vs && v.OutreachVariant?) <==> Truthy(variantId)
    ensures forall v :: v in vs ==>
      || (v.Notes? && Some(v.text) == notes)
      || (v.Stage? && Some(v.option) == stageId)
      || (v.OutreachVariant? && Some(v.option) == variantId)
  {
    var a := if Truthy(notes) then [Notes(notes.value)] else [];
    var b := if Truthy(stageId) then [Stage(stageId.value)] else [];
    var c := if Truthy(variantId) then [OutreachVariant(variantId.value)] else [];
    var vs := a + b + c;
    assert forall v :: v in vs <==> v in a || v in b || v in c;
    assert Truthy(notes) ==> Notes(notes.value) in vs;
    assert Truthy(stageId) ==> Stage(stageId.value) in vs;
    assert Truthy(variantId) ==> OutreachVariant(variantId.value) in vs;
    vs
  }

  /** `entry.stage ? getStageOptionId(entry.stage) : null` */
  function StageIdFor(stage: Option<string>): (id: Option<string>)
    ensures Truthy(stage) ==> id == StageOptionId(stage.value)
    ensures !Truthy(stage) ==> id == None
  {
    if Truthy(stage) then StageOptionId(stage.value) else None
  }

  /** The stage appears in a list entry exactly when the entry names a stage
      the mapping knows. */
  lemma StageInEntryIffMapped(notes: Option<string>, stage: Option<string>, variantId: Option<string>)
    ensures (exists v :: v in EntryValues(notes, StageIdFor(stage), variantId) && v.Stage?) <==>
      Truthy(stage) && Key(stage.value) in StageMapping
  {
    var id := StageIdFor(stage);
    if Truthy(stage) && Key(stage.value) in StageMapping {
      assert id == Some(StageMapping[Key(stage.value)]);
      assert Truthy(id);
      assert Stage(id.value) in EntryValues(notes, id, variantId);
    }
  }

  // ---------------------------------------------------------------------------
  // logToAttio

  datatype LogResult = Skipped | PersonCreated | PersonCreatedAndListed

  const OutreachVariantSlug: string := "outreach_variant"

  /** The option requests `logToAttio` makes for the outreach variant: those
      of `getOrCreateSelectOption` when a variant is given, none otherwise. */
  function VariantRequests(entry: AttioLogEntry, apiKey: Option<string>, listId: string,
                           listed: HttpReply<seq<SelectOption>>): (sent: seq<AttioRequest>)
    ensures !Truthy(entry.outreachVariant) ==> sent == []
    ensures Truthy(entry.outreachVariant) ==>
      sent == OptionRequests(apiKey, listId, OutreachVariantSlug, entry.outreachVariant.value, listed)
  {
    if Truthy(entry.outreachVariant)
    then OptionRequests(apiKey, listId, OutreachVariantSlug, entry.outreachVariant.value, listed)
    else []
  }

  /** `logToAttio(entry)`. Without a key it returns at once and sends nothing.
      Otherwise it creates the person; a failure there throws. With a list
      configured it then resolves the stage and the outreach variant and adds
      the person to the list; a failure there throws too. */
  method LogToAttio(entry: AttioLogEntry, apiKey: Option<string>, listId: Option<string>,
                    personReply: HttpReply<string>, listed: HttpReply<seq<SelectOption>>,
                    created: HttpReply<string>, listReply: HttpReply<()>)
    returns (r: Result<LogResult>, sent: seq<AttioRequest>)
    ensures !Truthy(apiKey) ==> r == Success(Skipped) && sent == []
    ensures Truthy(apiKey) ==> |sent| >= 1 && sent[0] == CreatePerson(PersonBodyFor(entry))
    ensures Truthy(apiKey) && personReply.NotOk? ==>
      r == Failure("Attio Person Creation Error: " + personReply.statusLine) && sent == [CreatePerson(PersonBodyFor(entry))]
    ensures Truthy(apiKey) && personReply.Threw? ==>
      r == Failure(personReply.error) && sent == [CreatePerson(PersonBodyFor(entry))]
    ensures Truthy(apiKey) && personReply.Ok? && !Truthy(listId) ==>
      r == Success(PersonCreated) && sent == [CreatePerson(PersonBodyFor(entry))]
    ensures Truthy(apiKey) && personReply.Ok? && Truthy(listId) ==>
      var variantId := if Truthy(entry.outreachVariant)
        then ResolvedOptionId(apiKey, listed, created, entry.outreachVariant.value) else None;
      && (FetchOptions(listId.value, OutreachVariantSlug) in sent <==> Truthy(entry.outreachVariant))
      && sent == [CreatePerson(PersonBodyFor(entry))]
                 + VariantRequests(entry, apiKey, listId.value, listed)
                 + [AddListEntry(listId.value, ListEntryBody(personReply.body, "people",
                      EntryValues(entry.notes, StageIdFor(entry.stage), variantId)))]
      && (listReply.Ok? ==> r == Success(PersonCreatedAndListed))
      && (listReply.NotOk? ==> r == Failure("Attio List Entry Error: " + listReply.statusLine))
      && (listReply.Threw? ==> r == Failure(listReply.error))
  {
    if !Truthy(apiKey) {
      return Success(Skipped), [];
    }
    var names := SplitPersonName(entry.person);
    var personBody := PersonBody(names.0, names.1, entry.person, OptionalPersonFields(entry));
    sent := [CreatePerson(personBody)];
    match personReply {
      case Threw(e) =>
        return Failure(e), sent;
      case NotOk(status) =>
        return Failure("Attio Person Creation Error: " + status), sent;
      case Ok(recordId) =>
        if !Truthy(listId) {
          return Success(PersonCreated), sent;
        }
        var stageOptionId := if Truthy(entry.stage) then StageOptionId(entry.stage.value) else None;
        var variantOptionId: Option<string> := None;
        if Truthy(entry.outreachVariant) {
          var optionRequests;
          variantOptionId, optionRequests := GetOrCreateSelectOption(apiKey, listId.value, OutreachVariantSlug,
                                                                    entry.outreachVariant.value, listed, created);
          sent := sent + optionRequests;
        }
        var listEntry := ListEntryBody(recordId, "people", EntryValues(entry.notes, stageOptionId, variantOptionId));
        sent := sent + [AddListEntry(listId.value, listEntry)];
        match listReply {
          case Threw(e) =>
            r := Failure(e);
          case NotOk(status) =>
            r := Failure("Attio List Entry Error: " + status);
          case Ok(_) =>
            r := Success(PersonCreatedAndListed);
        }
    }
  }
}

=== FILE: gemini.dfy ===
/** The Gemini adapter: a credential check, the first-name step on the
    caller's profile, one vendor call with a fixed system instruction and a
    JSON response schema, and parse-or-fail on the returned text. */
module Gemini {
  import opened Wrappers
  import opened Types
  import opened Adapters

  const DefaultModel: string := "gemini-1.5-pro"
  const MissingKeyError: string := "GEMINI_API_KEY is not set"
  const InvalidJsonError: string := "Invalid JSON response from Gemini"

  /** The screening and drafting instruction sent as the system instruction
      (its first sentence; the remaining text does not affect the model). */
  const SystemInstruction: string :=
    "You are an experienced founder doing qualitative market research, not selling a product."

  /** The module's configuration: `GEMINI_API_KEY` and `GEMINI_MODEL`. */
  datatype GeminiConfig = GeminiConfig(apiKey: Option<string>, modelName: string)

  function ConfigFrom(geminiApiKey: Option<string>, geminiModel: Option<string>): (c: GeminiConfig)
    ensures c.apiKey == geminiApiKey
    ensures Truthy(geminiModel) ==> c.modelName == geminiModel.value
    ensures !Truthy(geminiModel) ==> c.modelName == DefaultModel
  {
    GeminiConfig(geminiApiKey, OrElse(geminiModel, DefaultModel))
  }

  /** One `generateContent` call: the model, its system instruction, whether
      a JSON response with the fixed schema is requested, and the user prompt. */
  datatype GeminiRequest = GeminiRequest(model: string, systemInstruction: string, jsonSchema: bool, userPrompt: string)

  /** What the vendor call yields: the response text, or a thrown error. */
  datatype TextReply = Text(text: string) | Threw(error: string)

  /** The request sent for a profile snapshot taken on entry: the configured
      model, the fixed instruction, the JSON schema, and the user prompt around
      the profile as serialised after the first-name step. */
  function RequestFor(config: GeminiConfig, profile: ProfileData, thesis: string, icpDescription: string, codec: JsonCodec): (req: GeminiRequest)
    ensures req.model == config.modelName && req.systemInstruction == SystemInstruction && req.jsonSchema
    ensures req.userPrompt == UserPrompt(icpDescription, thesis, codec.pretty(WithDerivedFirstName(profile)))
  {
    GeminiRequest(config.modelName, SystemInstruction, true,
      UserPrompt(icpDescription, thesis, codec.pretty(WithDerivedFirstName(profile))))
  }

  /** The result of `generateMessage` for a profile snapshot taken on entry. */
  function Outcome(config: GeminiConfig, profile: ProfileData, thesis: string, icpDescription: string,
                   vendor: GeminiRequest -> TextReply, codec: JsonCodec): (r: Result<GenerationResponse>)
    ensures !Truthy(config.apiKey) ==> r == Failure(MissingKeyError)
    ensures Truthy(config.apiKey) ==>
      var reply := vendor(RequestFor(config, profile, thesis, icpDescription, codec));
      && (reply.Threw? ==> r == Failure(reply.error))
      && (reply.Text? && codec.parse(reply.text).None? ==> r == Failure(InvalidJsonError))
      && (r.Success? <==> reply.Text? && codec.parse(reply.text).Some?)
      && (r.Success? ==> codec.parse(reply.text) == Some(r.value))
  {
    if !Truthy(config.apiKey) then Failure(MissingKeyError)
    else
      match vendor(RequestFor(config, profile, thesis, icpDescription, codec))
      case Threw(e) => Failure(e)
      case Text(t) =>
        match codec.parse(t)
        case None => Failure(InvalidJsonError)
        case Some(data) => Success(data)
  }

  /** `generateMessage(profile, thesis, icpDescription)`. Without a key it
      throws before touching the profile or the vendor; otherwise it derives
      the first name in place and then calls the vendor exactly once. */
  method GenerateMessage(profile: Profile, thesis: string, icpDescription: string, config: GeminiConfig,
                         vendor: GeminiRequest -> TextReply, codec: JsonCodec)
    returns (r: Result<GenerationResponse>)
    modifies profile
    ensures r == Outcome(config, old(profile.Data()), thesis, icpDescription, vendor, codec)
    ensures !Truthy(config.apiKey) ==> profile.Data() == old(profile.Data())
    ensures Truthy(config.apiKey) ==> profile.Data() == WithDerivedFirstName(old(profile.Data()))
  {
    if !Truthy(config.apiKey) {
      return Failure(MissingKeyError);
    }
    ghost var entry := profile.Data();
    profile.DeriveFirstName();
    var profileJson := codec.pretty(profile.Data());
    var request := GeminiRequest(config.modelName, SystemInstruction, true, UserPrompt(icpDescription, thesis, profileJson));
    assert request == RequestFor(config, entry, thesis, icpDescription, codec);
    var reply := vendor(request);
    match reply {
      case Threw(e) =>
        r := Failure(e);
      case Text(text) =>
        var data := codec.parse(text);
        if data.None? {
          r := Failure(InvalidJsonError);
        } else {
          r := Success(data.value);
        }
    }
  }

  /** A profile named "Jane Doe" without a first name reaches the vendor
      serialised with the first name "Jane", after the ICP description and the thesis. */
  lemma JaneDoeReachesVendorAsJane(config: GeminiConfig, profile: ProfileData, thesis: string, icpDescription: string, codec: JsonCodec)
    requires profile.name == "Jane Doe" && profile.firstName.None?
    ensures WithDerivedFirstName(profile) == profile.(firstName := Some("Jane"))
    ensures var prompt := RequestFor(config, profile, thesis, icpDescription, codec).userPrompt;
      && prompt[ProfileOffset(icpDescription, thesis)..][..|codec.pretty(profile.(firstName := Some("Jane")))|]
         == codec.pretty(profile.(firstName := Some("Jane")))
      && prompt[ThesisOffset(icpDescription)..][..|thesis|] == thesis
  {
    DerivedFirstNameOfFullName(profile.name);
  }
}

=== FILE: llm_factory.dfy ===
/** The provider selection: a process-wide current provider, a setter that
    accepts only "openai" and "gemini", a getter, and a dispatch that sends
    "openai" to the OpenAI adapter and every other value to Gemini. */
module LlmFactory {
  import opened Wrappers
  import opened Types
  import opened Adapters
  import Gemini
  import OpenAI
  import PromptFile

  const InvalidProviderError: string := "Invalid provider"

  predicate IsValidProvider(provider: string) {
    provider == "openai" || provider == "gemini"
  }

  /** The start-up value: `LLM_PROVIDER` when it is set and non-empty, else
      "gemini". It is not checked against the valid providers. */
  function InitialProvider(llmProvider: Option<string>): (p: string)
    ensures Truthy(llmProvider) ==> p == llmProvider.value
    ensures !Truthy(llmProvider) ==> p == "gemini"
  {
    OrElse(llmProvider, "gemini")
  }

  /** The provider after `setProvider(provider)` from `current`. */
  function Selected(current: string, provider: string): (r: string)
    ensures IsValidProvider(provider) ==> r == provider
    ensures !IsValidProvider(provider) ==> r == current
  {
    if IsValidProvider(provider) then provider else current
  }

  /** The provider after a series of `setProvider` calls, made in order. */
  function SelectedAfter(current: string, providers: seq<string>): string
  {
    if providers == [] then current
    else Selected(SelectedAfter(current, providers[..|providers| - 1]), providers[|providers| - 1])
  }

  /** A series of calls none of which names a valid provider leaves the
      selection where it was. */
  lemma {:induction false} SelectedAfterUnchanged(current: string, providers: seq<string>)
    requires forall k :: 0 <= k < |providers| ==> !IsValidProvider(providers[k])
    ensures SelectedAfter(current, providers) == current
  {
    if providers != [] {
      var n := |providers| - 1;
      assert forall k :: 0 <= k < n ==> providers[..n][k] == providers[k];
      SelectedAfterUnchanged(current, providers[..n]);
    }
  }

  /** The last valid name in a series of calls is the selection afterwards. */
  lemma {:induction false} SelectedAfterLastValid(current: string, providers: seq<string>, k: nat)
    requires k < |providers| && IsValidProvider(providers[k])
    requires forall j :: k < j < |providers| ==> !IsValidProvider(providers[j])
    ensures SelectedAfter(current, providers) == providers[k]
  {
    var n := |providers| - 1;
    if k < n {
      assert forall j :: k < j < n ==> providers[..n][j] == providers[j];
      SelectedAfterLastValid(current, providers[..n], k);
    }
  }

  /** Once any call in a series has named a valid provider, the selection is
      valid, whatever the start-up value was. */
  lemma {:induction false} SelectedAfterValid(current: string, providers: seq<string>, k: nat)
    requires k < |providers| && IsValidProvider(providers[k])
    ensures IsValidProvider(SelectedAfter(current, providers))
  {
    var n := |providers| - 1;
    if !IsValidProvider(providers[n]) {
      assert providers[..n][k] == providers[k];
      SelectedAfterValid(current, providers[..n], k);
    }
  }

  /** Setting the same provider twice leaves the same selection as setting it once. */
  lemma SetProviderIdempotent(current: string, provider: string)
    ensures Selected(Selected(current, provider), provider) == Selected(current, provider)
  {
  }

  /** An unchecked start-up value such as "claude" stays selected until a
      valid `setProvider`, and the dispatch sends it to Gemini. */
  lemma InitialProviderIsNotValidated(llmProvider: Option<string>)
    requires llmProvider == Some("claude")
    ensures !IsValidProvider(InitialProvider(llmProvider))
    ensures InitialProvider(llmProvider) != "openai"
    ensures SelectedAfter(InitialProvider(llmProvider), ["anthropic", ""]) == "claude"
  {
    assert ["anthropic", ""][..1] == ["anthropic"];
    assert ["anthropic"][..0] == [];
  }

  /** The vendor ends and the configuration both adapters need. */
  datatype Backends = Backends(
    gemini: Gemini.GeminiConfig,
    geminiVendor: Gemini.GeminiRequest -> Gemini.TextReply,
    openai: OpenAI.OpenAIConfig,
    openaiVendor: OpenAI.ChatRequest -> OpenAI.ChatReply,
    promptReadFails: bool,
    codec: JsonCodec)

  class ProviderSelection {
    var currentProvider: string

    constructor (llmProvider: Option<string>)
      ensures currentProvider == InitialProvider(llmProvider)
    {
      currentProvider := OrElse(llmProvider, "gemini");
    }

    /** `getProvider()` */
    function GetProvider(): (p: string)
      reads this
      ensures p == currentProvider
    {
      currentProvider
    }

    /** `setProvider(provider)`: switches to a valid provider, and otherwise
        throws and leaves the selection as it was. */
    method SetProvider(provider: string) returns (outcome: Outcome)
      modifies this
      ensures IsValidProvider(provider) ==> outcome == Pass && GetProvider() == provider
      ensures !IsValidProvider(provider) ==> outcome == Fail(InvalidProviderError) && GetProvider() == old(GetProvider())
      ensures GetProvider() == Selected(old(GetProvider()), provider)
    {
      if provider == "openai" || provider == "gemini" {
        currentProvider := provider;
        outcome := Pass;
      } else {
        outcome := Fail(InvalidProviderError);
      }
    }

    /** `generateMessage(profile, thesis, icpDescription)`: "openai" goes to
        the OpenAI adapter, every other value, valid or not, to Gemini. The
        selection itself is only read. */
    method GenerateMessage(profile: Profile, thesis: string, icpDescription: string,
                           backends: Backends, prompt: PromptFile.PromptFile)
      returns (r: Result<GenerationResponse>)
      modifies profile
      ensures currentProvider == old(currentProvider)
      ensures currentProvider == "openai" ==>
        r == OpenAI.Outcome(backends.openai, prompt.contents, backends.promptReadFails, old(profile.Data()),
                            thesis, icpDescription, backends.openaiVendor, backends.codec)
      ensures currentProvider != "openai" ==>
        r == Gemini.Outcome(backends.gemini, old(profile.Data()), thesis, icpDescription,
                            backends.geminiVendor, backends.codec)
      ensures (if currentProvider == "openai" then backends.openai.client.Some? else Truthy(backends.gemini.apiKey)) ==>
        profile.Data() == WithDerivedFirstName(old(profile.Data()))
      ensures (if currentProvider == "openai" then backends.openai.client.None? else !Truthy(backends.gemini.apiKey)) ==>
        profile.Data() == old(profile.Data())
    {
      if currentProvider == "openai" {
        r := OpenAI.GenerateMessageOpenAI(profile, thesis, icpDescription, backends.openai, prompt,
                                          backends.promptReadFails, backends.openaiVendor, backends.codec);
      } else {
        r := Gemini.GenerateMessage(profile, thesis, icpDescription, backends.gemini,
                                    backends.geminiVendor, backends.codec);
      }
    }
  }

  /** Both adapters send the same user prompt; OpenAI sends it after the
      system prompt, as the second of exactly two messages. */
  lemma AdaptersSendSameUserPrompt(backends: Backends, systemPrompt: string, profile: ProfileData,
                                   thesis: string, icpDescription: string)
    ensures var chat := OpenAI.RequestFor(backends.openai, systemPrompt, profile, thesis, icpDescription, backends.codec);
      && |chat.messages| == 2
      && chat.messages[0] == OpenAI.ChatMessage(OpenAI.SystemRole, systemPrompt)
      && chat.messages[1].role == OpenAI.UserRole
      && chat.messages[1].content
         == Gemini.RequestFor(backends.gemini, profile, thesis, icpDescription, backends.codec).userPrompt
  {
  }
}

=== FILE: openai.dfy ===
/** The OpenAI adapter: a client that exists only when a key was configured,
    a system prompt read from the prompt file on every call, the first-name
    step on the caller's profile, one chat completion, and the empty-content
    and parse-or-fail checks on its reply. */
module OpenAI {
  import opened Wrappers
  import opened Types
  import opened Adapters
  import PromptFile

  const DefaultModel: string := "gpt-4o"
  const DefaultSystemPrompt: string := "You are an experienced founder doing qualitative market research..."
  const MissingKeyError: string := "OPENAI_API_KEY is not set"
  const EmptyContentError: string := "OpenAI returned empty content"
  const InvalidJsonError: string := "Invalid JSON response from OpenAI"

  /** The module-level client, created once when the module loads. */
  datatype Client = Client(apiKey: string)

  function ClientFor(apiKey: Option<string>): (client: Option<Client>)
    ensures client.Some? <==> Truthy(apiKey)
    ensures client.Some? ==> client.value.apiKey == apiKey.value
  {
    if Truthy(apiKey) then Some(Client(apiKey.value)) else None
  }

  /** The module's configuration: the client built from `OPENAI_API_KEY`
      and the model named by `OPENAI_MODEL`. */
  datatype OpenAIConfig = OpenAIConfig(client: Option<Client>, modelName: string)

  function ConfigFrom(openaiApiKey: Option<string>, openaiModel: Option<string>): (c: OpenAIConfig)
    ensures c.client.Some? <==> Truthy(openaiApiKey)
    ensures Truthy(openaiModel) ==> c.modelName == openaiModel.value
    ensures !Truthy(openaiModel) ==> c.modelName == DefaultModel
  {
    OpenAIConfig(ClientFor(openaiApiKey), OrElse(openaiModel, DefaultModel))
  }

  /** `getSystemPrompt()`: the prompt file's contents when the file exists and
      can be read, the fixed default otherwise. A file holding the empty
      string yields the empty string. */
  function SystemPrompt(file: Option<string>, readFails: bool): (r: string)
    ensures file.Some? && !readFails ==> r == file.value
    ensures file.None? || readFails ==> r == DefaultSystemPrompt
  {
    match file
    case Some(text) => if readFails then DefaultSystemPrompt else text
    case None => DefaultSystemPrompt
  }

  datatype Role = SystemRole | UserRole
  datatype ChatMessage = ChatMessage(role: Role, content: string)

  /** One `chat.completions.create` call; `jsonObject` is the requested JSON response format. */
  datatype ChatRequest = ChatRequest(model: string, messages: seq<ChatMessage>, jsonObject: bool)

  /** What the vendor call yields: the first choice's content (possibly null), or a thrown error. */
  datatype ChatReply = Content(content: Option<string>) | Threw(error: string)

  /** The chat request: the configured model, the system prompt and then the
      user prompt as the only two messages, and the JSON response format. */
  function RequestFor(config: OpenAIConfig, systemPrompt: string, profile: ProfileData, thesis: string,
                      icpDescription: string, codec: JsonCodec): (req: ChatRequest)
    ensures req.model == config.modelName && req.jsonObject
    ensures |req.messages| == 2
    ensures req.messages[0] == ChatMessage(SystemRole, systemPrompt)
    ensures req.messages[1] == ChatMessage(UserRole, UserPrompt(icpDescription, thesis, codec.pretty(WithDerivedFirstName(profile))))
  {
    ChatRequest(config.modelName,
      [ChatMessage(SystemRole, systemPrompt),
       ChatMessage(UserRole, UserPrompt(icpDescription, thesis, codec.pretty(WithDerivedFirstName(profile))))],
      true)
  }

  /** The result of `generateMessageOpenAI` for a profile snapshot taken on
      entry and the prompt file as it is when the call starts. */
  function Outcome(config: OpenAIConfig, file: Option<string>, readFails: bool, profile: ProfileData,
                   thesis: string, icpDescription: string, vendor: ChatRequest -> ChatReply,
                   codec: JsonCodec): (r: Result<GenerationResponse>)
    ensures config.client.None? ==> r == Failure(MissingKeyError)
    ensures config.client.Some? ==>
      var reply := vendor(RequestFor(config, SystemPrompt(file, readFails), profile, thesis, icpDescription, codec));
      && (reply.Threw? ==> r == Failure(reply.error))
      && (reply.Content? && !Truthy(reply.content) ==> r == Failure(EmptyContentError))
      && (reply.Content? && Truthy(reply.content) && codec.parse(reply.content.value).None? ==>
            r == Failure(InvalidJsonError))
      && (r.Success? <==> reply.Content? && Truthy(reply.content) && codec.parse(reply.content.value).Some?)
      && (r.Success? ==> codec.parse(reply.content.value) == Some(r.value))
  {
    if config.client.None? then Failure(MissingKeyError)
    else
      match vendor(RequestFor(config, SystemPrompt(file, readFails), profile, thesis, icpDescription, codec))
      case Threw(e) => Failure(e)
      case Content(content) =>
        if !Truthy(content) then Failure(EmptyContentError)
        else
          match codec.parse(content.value)
          case None => Failure(InvalidJsonError)
          case Some(data) => Success(data)
  }

  /** `generateMessageOpenAI(profile, thesis, icpDescription)`. Without a
      client it throws before reading the prompt file, touching the profile or
      calling the vendor; otherwise it reads the system prompt, derives the
      first name in place and calls the vendor exactly once. */
  method GenerateMessageOpenAI(profile: Profile, thesis: string, icpDescription: string, config: OpenAIConfig,
                               prompt: PromptFile.PromptFile, readFails: bool,
                               vendor: ChatRequest -> ChatReply, codec: JsonCodec)
    returns (r: Result<GenerationResponse>)
    modifies profile
    ensures r == Outcome(config, prompt.contents, readFails, old(profile.Data()), thesis, icpDescription, vendor, codec)
    ensures config.client.None? ==> profile.Data() == old(profile.Data())
    ensures config.client.Some? ==> profile.Data() == WithDerivedFirstName(old(profile.Data()))
  {
    if config.client.None? {
      return Failure(MissingKeyError);
    }
    var systemPrompt := SystemPrompt(prompt.contents, readFails);
    ghost var entry := profile.Data();
    profile.DeriveFirstName();
    var profileJson := codec.pretty(profile.Data());
    var userPrompt := UserPrompt(icpDescription, thesis, profileJson);
    var request := ChatRequest(config.modelName,
      [ChatMessage(SystemRole, systemPrompt), ChatMessage(UserRole, userPrompt)], true);
    assert request == RequestFor(config, systemPrompt, entry, thesis, icpDescription, codec);
    var reply := vendor(request);
    match reply {
      case Threw(e) =>
        r := Failure(e);
      case Content(content) =>
        if !Truthy(content) {
          r := Failure(EmptyContentError);
        } else {
          var data := codec.parse(content.value);
          if data.None? {
            r := Failure(InvalidJsonError);
          } else {
            r := Success(data.value);
          }
        }
    }
  }
}

=== FILE: prompt_file.dfy ===
/** The editable system prompt lives in one file, `system_prompt.txt`, that
    the server's prompt endpoints write and read and the OpenAI adapter reads
    on every call. The model keeps the file's contents as a field; `None`
    means the file does not exist. */
module PromptFile {
  import opened Wrappers

  class PromptFile {
    var contents: Option<string>

    constructor (initial: Option<string>)
      ensures contents == initial
    {
      contents := initial;
    }
  }
}

=== FILE: server.dfy ===
/** The pure part of the HTTP handlers: the prompt endpoints' validation and
    replies over the prompt file, and `/api/generate`'s input check,
    defaulting, call of the Gemini adapter, log row and response mapping. */
module Server {
  import opened Wrappers
  import opened JsStrings
  import opened Types
  import opened Adapters
  import Gemini
  import OpenAI
  import PromptFile

  // ---------------------------------------------------------------------------
  // POST /api/update-prompt and GET /api/get-prompt

  /** The `prompt` field of the request body. */
  datatype BodyValue = Absent | StringValue(s: string) | NonString

  datatype PromptReplyBody = ErrorBody(error: string) | MessageBody(message: string) | PromptBody(prompt: string)
  datatype PromptReply = PromptReply(status: nat, body: PromptReplyBody)

  /** `!prompt || typeof prompt !== "string"` rejects the body. */
  predicate AcceptsPrompt(prompt: BodyValue) {
    prompt.StringValue? && prompt.s != ""
  }

  /** The reply of the update endpoint; `writeFails` stands for `writeFileSync` throwing. */
  function UpdateReply(prompt: BodyValue, writeFails: bool): (r: PromptReply)
    ensures r.status == 400 <==> !AcceptsPrompt(prompt)
    ensures r.status == 500 <==> AcceptsPrompt(prompt) && writeFails
    ensures r.status == 200 <==> AcceptsPrompt(prompt) && !writeFails
    ensures r.status == 400 ==> r.body == ErrorBody("Prompt string is required")
    ensures r.status == 500 ==> r.body == ErrorBody("Failed to update system prompt")
    ensures r.status == 200 ==> r.body == MessageBody("System prompt updated successfully")
  {
    if !AcceptsPrompt(prompt) then PromptReply(400, ErrorBody("Prompt string is required"))
    else if writeFails then PromptReply(500, ErrorBody("Failed to update system prompt"))
    else PromptReply(200, MessageBody("System prompt updated successfully"))
  }

  /** The prompt file after the update endpoint: a rejected body or a failed
      write leaves it as it was; otherwise it holds the new prompt. */
  function StoredAfterUpdate(contents: Option<string>, prompt: BodyValue, writeFails: bool): (c: Option<string>)
    ensures UpdateReply(prompt, writeFails).status == 200 ==> c == Some(prompt.s)
    ensures UpdateReply(prompt, writeFails).status != 200 ==> c == contents
    ensures c != contents ==> c.Some? && c.value != ""
  {
    if AcceptsPrompt(prompt) && !writeFails then Some(prompt.s) else contents
  }

  /** The reply of the get endpoint; `readFails` stands for `readFileSync` throwing. */
  function GetPromptReply(contents: Option<string>, readFails: bool): (r: PromptReply)
    ensures r.status == 404 <==> contents.None?
    ensures r.status == 200 <==> contents.Some? && !readFails
    ensures r.status == 500 <==> contents.Some? && readFails
    ensures r.status == 200 ==> r.body == PromptBody(contents.value)
    ensures r.status == 404 ==> r.body == ErrorBody("System prompt file not found")
    ensures r.status == 500 ==> r.body == ErrorBody("Failed to read system prompt")
  {
    match contents
    case None => PromptReply(404, ErrorBody("System prompt file not found"))
    case Some(text) =>
      if readFails then PromptReply(500, ErrorBody("Failed to read system prompt"))
      else PromptReply(200, PromptBody(text))
  }

  method UpdatePrompt(file: PromptFile.PromptFile, prompt: BodyValue, writeFails: bool) returns (reply: PromptReply)
    modifies file
    ensures reply == UpdateReply(prompt, writeFails)
    ensures file.contents == StoredAfterUpdate(old(file.contents), prompt, writeFails)
  {
    if !(prompt.StringValue? && prompt.s != "") {
      return PromptReply(400, ErrorBody("Prompt string is required"));
    }
    if writeFails {
      return PromptReply(500, ErrorBody("Failed to update system prompt"));
    }
    file.contents := Some(prompt.s);
    reply := PromptReply(200, MessageBody("System prompt updated successfully"));
  }

  method GetPrompt(file: PromptFile.PromptFile, readFails: bool) returns (reply: PromptReply)
    ensures reply == GetPromptReply(file.contents, readFails)
  {
    if file.contents.None? {
      return PromptReply(404, ErrorBody("System prompt file not found"));
    }
    if readFails {
      return PromptReply(500, ErrorBody("Failed to read system prompt"));
    }
    reply := PromptReply(200, PromptBody(file.contents.value));
  }

  /** A stored prompt is what the get endpoint returns and what the OpenAI
      adapter's next call uses as its system prompt. */
  lemma UpdateThenRead(contents: Option<string>, text: string)
    requires text != ""
    ensures GetPromptReply(StoredAfterUpdate(contents, StringValue(text), false), false)
            == PromptReply(200, PromptBody(text))
    ensures OpenAI.SystemPrompt(StoredAfterUpdate(contents, StringValue(text), false), false) == text
  {
  }

  // ---------------------------------------------------------------------------
  // POST /api/generate

  datatype GenerateRequest = GenerateRequest(
    profile: Profile?, campaignId: Option<string>, thesis: Option<string>, currentUrl: Option<string>)

  /** `DEFAULT_THESIS` and `ICP_DESCRIPTION`. */
  datatype ServerConfig = ServerConfig(defaultThesis: Option<string>, icpDescription: Option<string>)

  const DefaultIcpDescription: string := "No ICP description provided."

  /** `thesis || process.env.DEFAULT_THESIS || ""` */
  function ThesisToUse(thesis: Option<string>, defaultThesis: Option<string>): (r: string)
    ensures Truthy(thesis) ==> r == thesis.value
    ensures !Truthy(thesis) && Truthy(defaultThesis) ==> r == defaultThesis.value
    ensures r == "" <==> !Truthy(thesis) && !Truthy(defaultThesis)
  {
    OrElse(thesis, OrElse(defaultThesis, ""))
  }

  /** `process.env.ICP_DESCRIPTION || "No ICP description provided."`: never empty. */
  function IcpDescriptionToUse(icpDescription: Option<string>): (r: string)
    ensures r != ""
    ensures Truthy(icpDescription) ==> r == icpDescription.value
    ensures !Truthy(icpDescription) ==> r == DefaultIcpDescription
  {
    OrElse(icpDescription, DefaultIcpDescription)
  }

  /** The JSON body of a `/api/generate` reply. */
  datatype GenerateResponse = GenerateResponse(
    message: Option<string>,
    length: nat,
    icpFit: string,
    icpScore: Option<real>,
    icpReason: Option<string>,
    icpLearning: Option<seq<string>>,
    error: Option<string>)

  datatype GenerateReply = GenerateReply(status: nat, body: GenerateResponse)

  function ErrorReply(status: nat, error: string): GenerateReply {
    GenerateReply(status, GenerateResponse(None, 0, "unknown", None, None, None, Some(error)))
  }

  /** `result.message || ""`: the message text, empty when there is none. */
  function GeneratedMessage(result: GenerationResponse): string {
    OrElse(result.message, "")
  }

  /** `result.icpScore > 5 ? "good" : "poor"` */
  function IcpFit(score: real): (fit: string)
    ensures fit == "good" <==> score > 5.0
    ensures fit == "poor" <==> score <= 5.0
  {
    if score > 5.0 then "good" else "poor"
  }

  /** The success body: the message is null exactly when the adapter's
      message is missing or empty, the length is that of the message (0 when
      null), the fit bucket follows the score, and the ICP fields are copied. */
  function SuccessResponse(result: GenerationResponse): (r: GenerateResponse)
    ensures r.message.Some? <==> Truthy(result.message)
    ensures r.message.Some? ==> r.message == result.message
    ensures r.length == 0 <==> r.message.None?
    ensures r.message.Some? ==> r.length == |r.message.value|
    ensures r.icpFit == "good" <==> result.icpScore > 5.0
    ensures r.icpFit == "poor" <==> result.icpScore <= 5.0
    ensures r.icpScore == Some(result.icpScore) && r.icpReason == Some(result.icpReason)
    ensures r.icpLearning == Some(result.icpLearning) && r.error.None?
  {
    GenerateResponse(
      TruthyValue(result.message),
      |GeneratedMessage(result)|,
      IcpFit(result.icpScore),
      Some(result.icpScore),
      Some(result.icpReason),
      Some(result.icpLearning),
      None)
  }

  /** The row handed to the spreadsheet logger. */
  datatype LogEntry = LogEntry(
    campaignId: string,
    linkedinUrl: string,
    name: string,
    headline: string,
    location: string,
    rawProfileJson: string,
    generatedMessage: string,
    messageLength: nat,
    thesisUsed: string,
    icpScore: real,
    icpReason: string,
    icpLearning: string)

  const LearningSeparator: string := ", "

  /** The log row for a successful generation. `profile` is the profile as it
      is after the adapter ran. */
  function LogEntryFor(req: GenerateRequest, profile: ProfileData, thesisUsed: string,
                       result: GenerationResponse, codec: JsonCodec): (e: LogEntry)
    ensures e.campaignId == OrElse(req.campaignId, "") && e.name == profile.name
    ensures e.headline == OrElse(profile.headline, "") && e.location == OrElse(profile.location, "")
    ensures e.messageLength == |e.generatedMessage| == SuccessResponse(result).length
    ensures e.generatedMessage == "" <==> SuccessResponse(result).message.None?
    ensures SuccessResponse(result).message.Some? ==> e.generatedMessage == SuccessResponse(result).message.value
    ensures e.linkedinUrl == OrElse(profile.linkedinUrl, OrElse(req.currentUrl, ""))
    ensures e.rawProfileJson == codec.compact(profile) && e.thesisUsed == thesisUsed
    ensures e.icpScore == result.icpScore && e.icpReason == result.icpReason
    ensures e.icpLearning == Join(result.icpLearning, LearningSeparator)
  {
    LogEntry(
      OrElse(req.campaignId, ""),
      OrElse(profile.linkedinUrl, OrElse(req.currentUrl, "")),
      profile.name,
      OrElse(profile.headline, ""),
      OrElse(profile.location, ""),
      codec.compact(profile),
      GeneratedMessage(result),
      |GeneratedMessage(result)|,
      thesisUsed,
      result.icpScore,
      result.icpReason,
      Join(result.icpLearning, LearningSeparator))
  }

  /** The learnings appear in the log row in their original order, each
      followed by ", " except the last. */
  lemma LoggedLearningsInOrder(req: GenerateRequest, profile: ProfileData, thesisUsed: string,
                               result: GenerationResponse, codec: JsonCodec, k: nat)
    requires k < |result.icpLearning|
    ensures var logged := LogEntryFor(req, profile, thesisUsed, result, codec).icpLearning;
      var at := JoinOffset(result.icpLearning, LearningSeparator, k);
      && at + |result.icpLearning[k]| <= |logged|
      && logged[at..][..|result.icpLearning[k]|] == result.icpLearning[k]
      && (k + 1 < |result.icpLearning| ==>
            JoinOffset(result.icpLearning, LearningSeparator, k + 1) <= |logged|
            && logged[at + |result.icpLearning[k]|..][..|LearningSeparator|] == LearningSeparator)
  {
    JoinPlacesParts(result.icpLearning, LearningSeparator, k);
  }

  /** `POST /api/generate`. The route calls the Gemini adapter directly. A
      missing profile is refused with 400, an adapter failure yields 500 and
      writes no row; otherwise one row is logged and the mapped result is
      returned. `logged` is the row handed to the spreadsheet logger. */
  method HandleGenerate(req: GenerateRequest, config: ServerConfig, gemini: Gemini.GeminiConfig,
                        vendor: Gemini.GeminiRequest -> Gemini.TextReply, codec: JsonCodec)
    returns (reply: GenerateReply, logged: Option<LogEntry>)
    modifies req.profile
    ensures req.profile == null ==> reply == ErrorReply(400, "Missing profile data") && logged == None
    ensures req.profile != null ==>
      req.profile.Data() == (if Truthy(gemini.apiKey) then WithDerivedFirstName(old(req.profile.Data()))
                             else old(req.profile.Data()))
    ensures req.profile != null ==>
      var thesisUsed := ThesisToUse(req.thesis, config.defaultThesis);
      var outcome := Gemini.Outcome(gemini, old(req.profile.Data()), thesisUsed,
                                    IcpDescriptionToUse(config.icpDescription), vendor, codec);
      && (outcome.Failure? ==> reply == ErrorReply(500, "LLM generation failed") && logged == None)
      && (outcome.Success? ==>
            && reply == GenerateReply(200, SuccessResponse(outcome.value))
            && req.profile.Data() == WithDerivedFirstName(old(req.profile.Data()))
            && logged == Some(LogEntryFor(req, req.profile.Data(), thesisUsed, outcome.value, codec)))
  {
    var profile := req.profile;
    if profile == null {
      return ErrorReply(400, "Missing profile data"), None;
    }
    var thesisUsed := OrElse(req.thesis, OrElse(config.defaultThesis, ""));
    var icpDescription := OrElse(config.icpDescription, DefaultIcpDescription);
    var result := Gemini.GenerateMessage(profile, thesisUsed, icpDescription, gemini, vendor, codec);
    if result.Failure? {
      return ErrorReply(500, "LLM generation failed"), None;
    }
    var generation := result.value;
    var generatedMessage := OrElse(generation.message, "");
    var messageLength := |generatedMessage|;
    logged := Some(LogEntry(
      OrElse(req.campaignId, ""),
      OrElse(profile.linkedinUrl, OrElse(req.currentUrl, "")),
      profile.name,
      OrElse(profile.headline, ""),
      OrElse(profile.location, ""),
      codec.compact(profile.Data()),
      generatedMessage,
      messageLength,
      thesisUsed,
      generation.icpScore,
      generation.icpReason,
      Join(generation.icpLearning, LearningSeparator)));
    reply := GenerateReply(200, GenerateResponse(
      if generation.message.Some? && generation.message.value != "" then generation.message else None,
      messageLength,
      if generation.icpScore > 5.0 then "good" else "poor",
      Some(generation.icpScore),
      Some(generation.icpReason),
      Some(generation.icpLearning),
      None));
  }

  /** The two end-to-end cases: a score of 8 with a drafted message, and a
      score of 3 without one. A score of exactly 5 is "poor", and a message
      the vendor returned with it is still passed through: the "only above 5"
      rule lives in the prompt text, not in this mapping. */
  lemma ScoreBuckets(drafted: string)
    requires drafted != ""
    ensures var r := SuccessResponse(GenerationResponse(8.0, "Strong operational fit",
                                                        ["vendor coordination", "logistics"], Some(drafted)));
      r.icpFit == "good" && r.message == Some(drafted) && r.length == |drafted|
    ensures var r := SuccessResponse(GenerationResponse(3.0, "Weak fit", [], None));
      r.icpFit == "poor" && r.message == None && r.length == 0
    ensures var r := SuccessResponse(GenerationResponse(5.0, "Borderline", [], Some(drafted)));
      r.icpFit == "poor" && r.message == Some(drafted)
  {
  }
}

=== FILE: strings.dfy ===
/** The JavaScript string operations the core relies on:
    `split(" ")`, `join(sep)`, `toLowerCase()` and `trim()`. */
module JsStrings {

  // ---------------------------------------------------------------------------
  // split and join

  /** Index of the first occurrence of `c`, or `|s|` when there is none. */
  function IndexOf(s: string, c: char): (i: nat)
    ensures i <= |s|
    ensures c !in s[..i]
    ensures i < |s| ==> s[i] == c
    ensures i == |s| <==> c !in s
  {
    if s == [] then 0
    else if s[0] == c then 0
    else
      var j := IndexOf(s[1..], c);
      assert s[1..][..j] == s[1..j + 1];
      assert s[..j + 1] == [s[0]] + s[1..j + 1];
      1 + j
  }

  /** `s.split(c)` for a one-character separator: every occurrence of `c`
      separates two parts, so empty parts are kept and there is always at
      least one part. */
  function Split(s: string, c: char): (parts: seq<string>)
    ensures |parts| >= 1
    ensures forall k :: 0 <= k < |parts| ==> c !in parts[k]
  {
    if s == [] then [[]]
    else
      var rest := Split(s[1..], c);
      if s[0] == c then [[]] + rest
      else [[s[0]] + rest[0]] + rest[1..]
  }

  /** `parts.join(sep)`; the join of no parts is the empty string. */
  function Join(parts: seq<string>, sep: string): string
  {
    if |parts| == 0 then []
    else if |parts| == 1 then parts[0]
    else parts[0] + sep + Join(parts[1..], sep)
  }

  /** Joining the parts of a split with the same separator gives back the input. */
  lemma {:induction false} JoinSplit(s: string, c: char)
    ensures Join(Split(s, c), [c]) == s
  {
    if s != [] {
      var rest := Split(s[1..], c);
      JoinSplit(s[1..], c);
      if s[0] == c {
        assert Split(s, c) == [[]] + rest;
        assert Join(Split(s, c), [c]) == [c] + Join(rest, [c]);
      } else {
        var parts := Split(s, c);
        assert parts == [[s[0]] + rest[0]] + rest[1..];
        if |rest| == 1 {
          assert Join(parts, [c]) == [s[0]] + rest[0];
        } else {
          assert parts[1..] == rest[1..];
          assert Join(parts, [c]) == [s[0]] + rest[0] + [c] + Join(rest[1..], [c]);
          assert Join(rest, [c]) == rest[0] + [c] + Join(rest[1..], [c]);
        }
      }
    }
  }

  /** The first part of a split is the text before the first separator, and
      the remaining parts, joined again, are the text after it. */
  lemma {:induction false} SplitHeadTail(s: string, c: char)
    ensures Split(s, c)[0] == s[..IndexOf(s, c)]
    ensures c !in s ==> |Split(s, c)| == 1
    ensures c in s ==> Join(Split(s, c)[1..], [c]) == s[IndexOf(s, c) + 1..]
  {
    if s != [] {
      var rest := Split(s[1..], c);
      SplitHeadTail(s[1..], c);
      if s[0] == c {
        assert Split(s, c) == [[]] + rest;
        assert Split(s, c)[1..] == rest;
        JoinSplit(s[1..], c);
      } else {
        var parts := Split(s, c);
        assert parts[1..] == rest[1..];
        var j := IndexOf(s[1..], c);
        assert s[..j + 1] == [s[0]] + s[1..][..j];
        if c in s {
          assert c in s[1..];
          assert s[j + 2..] == s[1..][j + 1..];
        } else {
          assert c !in s[1..];
        }
      }
    }
  }

  /** Each part occurs in the joined text at its own offset, so `join`
      keeps the parts in their original order. */
  function JoinOffset(parts: seq<string>, sep: string, k: nat): (off: nat)
    requires k <= |parts|
  {
    if k == 0 then 0 else JoinOffset(parts, sep, k - 1) + |parts[k - 1]| + |sep|
  }

  /** Each part `k` sits in the joined text at offset `JoinOffset(parts, sep, k)`,
      and a separator follows every part but the last. */
  lemma {:induction false} JoinPlacesParts(parts: seq<string>, sep: string, k: nat)
    requires k < |parts|
    ensures JoinOffset(parts, sep, k) + |parts[k]| <= |Join(parts, sep)|
    ensures Join(parts, sep)[JoinOffset(parts, sep, k)..][..|parts[k]|] == parts[k]
    ensures k + 1 < |parts| ==> JoinOffset(parts, sep, k + 1) <= |Join(parts, sep)|
    ensures k + 1 < |parts| ==> Join(parts, sep)[JoinOffset(parts, sep, k) + |parts[k]|..][..|sep|] == sep
  {
    if |parts| > 1 {
      var tail := Join(parts[1..], sep);
      var base := |parts[0]| + |sep|;
      JoinUnfold(parts, sep);
      if k > 0 {
        JoinPlacesParts(parts[1..], sep, k - 1);
        JoinOffsetShift(parts, sep, k);
        if k + 1 < |parts| {
          JoinOffsetShift(parts, sep, k + 1);
        }
      }
    }
  }

  lemma JoinUnfold(parts: seq<string>, sep: string)
    requires |parts| > 1
    ensures |Join(parts, sep)| == |parts[0]| + |sep| + |Join(parts[1..], sep)|
    ensures Join(parts, sep)[..|parts[0]|] == parts[0]
    ensures Join(parts, sep)[|parts[0]|..][..|sep|] == sep
    ensures Join(parts, sep)[|parts[0]| + |sep|..] == Join(parts[1..], sep)
  {
  }

  lemma {:induction false} JoinOffsetShift(parts: seq<string>, sep: string, k: nat)
    requires 1 <= k <= |parts|
    ensures JoinOffset(parts, sep, k) == |parts[0]| + |sep| + JoinOffset(parts[1..], sep, k - 1)
  {
    if k > 1 {
      JoinOffsetShift(parts, sep, k - 1);
    }
  }

  // ---------------------------------------------------------------------------
  // toLowerCase and trim

  /** `toLowerCase()`, on the ASCII letters only. */
  function LowerChar(ch: char): char {
    if 'A' <= ch <= 'Z' then (ch as int - 'A' as int + 'a' as int) as char else ch
  }

  function UpperChar(ch: char): char {
    if 'a' <= ch <= 'z' then (ch as int - 'a' as int + 'A' as int) as char else ch
  }

  function Lower(s: string): (r: string)
    ensures |r| == |s|
  {
    seq(|s|, i requires 0 <= i < |s| => LowerChar(s[i]))
  }

  function Upper(s: string): (r: string)
    ensures |r| == |s|
  {
    seq(|s|, i requires 0 <= i < |s| => UpperChar(s[i]))
  }

  /** The characters `String.prototype.trim` removes: ECMAScript's
      WhiteSpace and LineTerminator code points. */
  predicate IsJsWhitespace(ch: char) {
    ch == '\t' || ch == '\n' || ch == '\U{000B}' || ch == '\U{000C}' || ch == '\r'
    || ch == ' ' || ch == '\U{00A0}' || ch == '\U{1680}'
    || ('\U{2000}' <= ch <= '\U{200A}')
    || ch == '\U{2028}' || ch == '\U{2029}' || ch == '\U{202F}' || ch == '\U{205F}'
    || ch == '\U{3000}' || ch == '\U{FEFF}'
  }

  predicate AllWhitespace(s: string) {
    forall k :: 0 <= k < |s| ==> IsJsWhitespace(s[k])
  }

  /** `trimStart()`: drops leading whitespace. Its properties are stated by
      `TrimStartSpec` rather than here, so that a mention of a key does not
      bring them into every proof. */
  function TrimStart(s: string): string {
    if s != [] && IsJsWhitespace(s[0]) then TrimStart(s[1..]) else s
  }

  /** `trimEnd()`: drops trailing whitespace; see `TrimEndSpec`. */
  function TrimEnd(s: string): string {
    if s != [] && IsJsWhitespace(s[|s| - 1]) then TrimEnd(s[..|s| - 1]) else s
  }

  /** What `TrimStart` removes is a whitespace prefix, and what it keeps starts
      with a character that is not whitespace. */
  lemma {:induction false} TrimStartSpec(s: string)
    ensures |TrimStart(s)| <= |s|
    ensures TrimStart(s) == s[|s| - |TrimStart(s)|..]
    ensures AllWhitespace(s[..|s| - |TrimStart(s)|])
    ensures TrimStart(s) == [] || !IsJsWhitespace(TrimStart(s)[0])
  {
    if s != [] && IsJsWhitespace(s[0]) {
      var r := TrimStart(s[1..]);
      TrimStartSpec(s[1..]);
      assert s[..|s| - |r|] == [s[0]] + s[1..][..|s| - 1 - |r|];
    }
  }

  /** What `TrimEnd` removes is a whitespace suffix, and what it keeps ends
      with a character that is not whitespace. */
  lemma {:induction false} TrimEndSpec(s: string)
    ensures |TrimEnd(s)| <= |s|
    ensures TrimEnd(s) == s[..|TrimEnd(s)|]
    ensures AllWhitespace(s[|TrimEnd(s)|..])
    ensures TrimEnd(s) == [] || !IsJsWhitespace(TrimEnd(s)[|TrimEnd(s)| - 1])
  {
    if s != [] && IsJsWhitespace(s[|s| - 1]) {
      var r := TrimEnd(s[..|s| - 1]);
      TrimEndSpec(s[..|s| - 1]);
      assert s[|r|..] == s[..|s| - 1][|r|..] + [s[|s| - 1]];
    }
  }

  /** `trim()`: the input without its leading and trailing whitespace. */
  function Trim(s: string): string {
    TrimEnd(TrimStart(s))
  }

  /** `s.toLowerCase().trim()`, the normal form used to compare titles and stage names. */
  function Key(s: string): string {
    Trim(Lower(s))
  }

  lemma LowerAppend(a: string, b: string)
    ensures Lower(a + b) == Lower(a) + Lower(b)
  {
  }

  lemma LowerKeepsWhitespace(ws: string)
    requires AllWhitespace(ws)
    ensures Lower(ws) == ws
  {
  }

  lemma {:induction false} TrimStartAppend(a: string, b: string)
    ensures TrimStart(a + b) == if AllWhitespace(a) then TrimStart(b) else TrimStart(a) + b
  {
    if a != [] {
      assert (a + b)[1..] == a[1..] + b;
      TrimStartAppend(a[1..], b);
      if IsJsWhitespace(a[0]) {
        assert AllWhitespace(a) <==> AllWhitespace(a[1..]);
      }
    } else {
      assert a + b == b;
    }
  }

  lemma {:induction false} TrimEndAppend(a: string, b: string)
    ensures TrimEnd(a + b) == if AllWhitespace(b) then TrimEnd(a) else a + TrimEnd(b)
  {
    if b != [] {
      var n := |b|;
      assert (a + b)[..|a + b| - 1] == a + b[..n - 1];
      TrimEndAppend(a, b[..n - 1]);
      if IsJsWhitespace(b[n - 1]) {
        assert AllWhitespace(b) <==> AllWhitespace(b[..n - 1]);
      }
    } else {
      assert a + b == a;
    }
  }

  lemma {:induction false} TrimStartAllWhitespace(s: string)
    requires AllWhitespace(s)
    ensures TrimStart(s) == []
  {
    if s != [] {
      assert AllWhitespace(s[1..]);
      TrimStartAllWhitespace(s[1..]);
    }
  }

  /** Surrounding whitespace makes no difference to `trim()`. */
  lemma TrimPadded(ws: string, s: string, ws': string)
    requires AllWhitespace(ws) && AllWhitespace(ws')
    ensures Trim(ws + s + ws') == Trim(s)
  {
    assert ws + s + ws' == ws + (s + ws');
    TrimStartAppend(ws, s + ws');
    assert TrimStart(ws + s + ws') == TrimStart(s + ws');
    TrimStartAppend(s, ws');
    if AllWhitespace(s) {
      TrimStartAllWhitespace(ws');
      TrimStartAllWhitespace(s);
      assert TrimStart(s + ws') == [] == TrimStart(s);
    } else {
      assert TrimStart(s + ws') == TrimStart(s) + ws';
      TrimEndAppend(TrimStart(s), ws');
    }
  }

  /** The comparison key ignores letter case and surrounding whitespace. */
  lemma KeyIgnoresCaseAndPadding(ws: string, s: string, ws': string)
    requires AllWhitespace(ws) && AllWhitespace(ws')
    ensures Key(ws + s + ws') == Key(s)
    ensures Key(Upper(s)) == Key(s)
    ensures Key(Lower(s)) == Key(s)
  {
    LowerAppend(ws + s, ws');
    LowerAppend(ws, s);
    LowerKeepsWhitespace(ws);
    LowerKeepsWhitespace(ws');
    assert Lower(ws + s + ws') == ws + Lower(s) + ws';
    TrimPadded(ws, Lower(s), ws');
    LowerUpper(s);
  }

  lemma LowerUpper(s: string)
    ensures Lower(Upper(s)) == Lower(s)
    ensures Lower(Lower(s)) == Lower(s)
  {
  }

  /** A text that is already lower case and has no surrounding whitespace is its own key. */
  lemma KeyOfNormalised(s: string, t: string)
    requires Lower(s) == t && t != []
    requires !IsJsWhitespace(t[0]) && !IsJsWhitespace(t[|t| - 1])
    ensures Key(s) == t
  {
    assert TrimStart(t) == t;
    assert TrimEnd(t) == t;
  }
}

=== FILE: types.dfy ===
/** The request and result shapes shared by the server and the two adapters. */
module Types {
  import opened Wrappers
  import opened JsStrings

  datatype Experience = Experience(title: string, company: string, dates: string, description: Option<string>)

  /** A snapshot of a profile's fields, as `JSON.stringify` would see them. */
  datatype ProfileData = ProfileData(
    name: string,
    firstName: Option<string>,
    headline: Option<string>,
    summary: Option<string>,
    location: Option<string>,
    experience: Option<seq<Experience>>,
    linkedinUrl: Option<string>)

  /** What an adapter returns once the vendor's JSON has been parsed and cast.
      `icpScore` is a JSON number, so it need not be a whole number. */
  datatype GenerationResponse = GenerationResponse(
    icpScore: real,
    icpReason: string,
    icpLearning: seq<string>,
    message: Option<string>)

  /** The first name an adapter gives a profile before serialising it: an
      existing truthy first name is kept; otherwise, when the name is truthy,
      the text of the name before its first space. */
  function DerivedFirstName(firstName: Option<string>, name: string): (r: Option<string>)
    ensures Truthy(firstName) ==> r == firstName
    ensures !Truthy(firstName) && name == "" ==> r == firstName
    ensures !Truthy(firstName) && name != "" ==>
      r == Some(name[..IndexOf(name, ' ')]) && ' ' !in r.value
  {
    if !Truthy(firstName) && name != "" then
      SplitHeadTail(name, ' ');
      Some(Split(name, ' ')[0])
    else firstName
  }

  /** Deriving the first name a second time changes nothing. */
  lemma DerivedFirstNameIdempotent(firstName: Option<string>, name: string)
    ensures DerivedFirstName(DerivedFirstName(firstName, name), name) == DerivedFirstName(firstName, name)
  {
    var once := DerivedFirstName(firstName, name);
    if !Truthy(firstName) && name != "" && !Truthy(once) {
      assert once == Some(name[..IndexOf(name, ' ')]);
    }
  }

  /** "Jane Doe" without a (truthy) first name is given the first name "Jane". */
  lemma DerivedFirstNameOfFullName(name: string)
    requires name == "Jane Doe"
    ensures DerivedFirstName(None, name) == Some("Jane")
    ensures DerivedFirstName(Some(""), name) == Some("Jane")
  {
    assert name[4] == ' ';
    assert name[..4] == "Jane";
  }

  /** The profile as an adapter serialises it, after the first-name step. */
  function WithDerivedFirstName(p: ProfileData): ProfileData {
    p.(firstName := DerivedFirstName(p.firstName, p.name))
  }

  /** The profile object of a request. The adapters write `firstName` into the
      caller's object, so a later serialisation by the caller sees it. */
  class Profile {
    var name: string
    var firstName: Option<string>
    var headline: Option<string>
    var summary: Option<string>
    var location: Option<string>
    var experience: Option<seq<Experience>>
    var linkedinUrl: Option<string>

    constructor (data: ProfileData)
      ensures Data() == data
    {
      name := data.name;
      firstName := data.firstName;
      headline := data.headline;
      summary := data.summary;
      location := data.location;
      experience := data.experience;
      linkedinUrl := data.linkedinUrl;
    }

    function Data(): ProfileData
      reads this
    {
      ProfileData(name, firstName, headline, summary, location, experience, linkedinUrl)
    }

    /** `if (!profile.firstName && profile.name) profile.firstName = profile.name.split(" ")[0]` */
    method DeriveFirstName()
      modifies this
      ensures Data() == WithDerivedFirstName(old(Data()))
      ensures Truthy(old(firstName)) ==> firstName == old(firstName)
      ensures !Truthy(old(firstName)) && name != "" ==> firstName == Some(name[..IndexOf(name, ' ')])
    {
      if !Truthy(firstName) && name != "" {
        firstName := Some(Split(name, ' ')[0]);
      }
    }
  }
}

=== FILE: wrappers.dfy ===
/** Option, Result and Outcome: the model's stand-ins for JavaScript's
    `undefined`/`null`, for a value-or-thrown-error, and for a call that
    either returns normally or throws. */
module Wrappers {

  datatype Option<+T> = None | Some(value: T)

  /** A computation that returns a value or throws an `Error` with a message. */
  datatype Result<+R> = Success(value: R) | Failure(error: string)

  /** A computation without a value that returns normally or throws. */
  datatype Outcome = Pass | Fail(error: string)

  /** JavaScript truthiness of an optional string: `undefined`, `null` and `""` are falsy. */
  predicate Truthy(o: Option<string>) {
    o.Some? && o.value != ""
  }

  /** `a || b` on an optional string whose fallback is a plain string. */
  function OrElse(o: Option<string>, fallback: string): string {
    if Truthy(o) then o.value else fallback
  }

  /** `a || undefined`: keeps a truthy value and drops a falsy one. */
  function TruthyValue(o: Option<string>): Option<string> {
    if Truthy(o) then o else None
  }
}
